=== FILE: README.md ===
# FlowWatch logging/tracing bridge — a Dafny model

FlowWatch is a thin layer over OpenTelemetry and logrus. This project models
the parts of it that carry logic, as pure Dafny functions over immutable data:

- **Severity translation** (`Levels`): the five-value `Level` enum (a `uint32`,
  so out-of-range values exist), its `String` names with the `"Unknown"`
  fallback, and `getLogrusLevel` with its fallback to `DebugLevel`.
- **Hook pipeline** (`Hooks`): the three logrus hooks — call-site annotation,
  trace bridge, fatal shutdown — as one step from an entry, the caller-lookup
  result and the shutdown registry. The step yields the entry's new fields, the
  span events recorded, the hooks fired and the shutdown drains run.
- **Shutdown registry and setup** (`Otel`): the append-only list of shutdown
  callbacks and the best-effort drain over it. Also the callback that shuts
  down the tracer provider and the exporter, with its four-way error
  combination, and `initTraceProvider` with its three outcomes (exit on TLS,
  wrapped error, one callback appended). Environment defaulting and the
  once-guarded `SetupOtelHelper` complete the module.
- **Logger singleton** (`Logger`): `GetLogHelper`'s one-time initialization
  (threshold Info, context hook then Otel hook), `SetLogLevel`, and a logging
  call gated by the threshold.

Supporting modules: `Wrappers` (`Option`, `Result`), `Errors` (pkg/errors-style
cause chains with their `Error()` text) and `Decimal` (`fmt.Sprintf("%d")` and
its inverse).

Several files are revisions of the same code. The model takes
`loggingHelper/logrusHooks.go`, `loggingHelper/levelHandler.go` and
`otelHelper/otelHelper.go` as canonical. The revisions differ observably in these ways:

- The root `logHelper.go` keys the message attribute `"level"` instead of `"msg"`. This is the `Hooks.Revision` parameter; see Findings.
- The root context hook looks up the caller 6 frames up, the package one 7. Its failure branch is silent, while the package one logs a Debug entry. The lookup is a model input, so the skip depth is absorbed into it.
- The root `initLogHelper` does not call `SetLevel`. logrus's own default threshold is Info, so the threshold is the same.
- `otelHelper/traceProvider.go` is the same `initTraceProvider` as in `otelHelper/otelHelper.go`.

Facts about the code that shape the model:

- The shutdown hook fires for Fatal and Panic (loggingHelper/logrusHooks.go:105-110).
- No initializer registers the shutdown hook: `initLogHelper` adds only the context and Otel hooks (loggingHelper/loggingHelper.go:109-110). The registered chain is therefore a parameter of `Hooks.Step`, and the chain actually registered is `Hooks.DefaultHooks`.
- `Shutdown` logs each callback error and returns nothing (otelHelper/otelHelper.go:24-31).
- The two errors combined are the provider's and the exporter's, inside the one registered callback (otelHelper/otelHelper.go:70-91).
- No function translates logrus levels back to `Level`; the model proves `getLogrusLevel` injective on the five named levels.
- An empty `OTEL_COLLECTOR_URL` is replaced by `localhost:4317` (otelHelper/otelHelper.go:118-122).

Two library rules from logrus are part of the model. First, an entry is emitted, and its hooks fire, only when it is at least as urgent as the threshold (`Logger.Enabled`). Second, hooks fire in registration order.

## Model

| member | source | states |
|---|---|---|
| Levels.Name | levelHandler.go:17-31 | Debug, Info, Warn, Error and Fatal are named "Debug", "Info", "Warn", "Error" and "Fatal"; every other value is "Unknown" |
| Levels.NameMatchesLogrusText | levelHandler.go:17-47 | a level's name, lower-cased, is the text of the logrus level it translates to, except that "warn" is the start of "warning" |
| Levels.NameInjective | levelHandler.go:17-29 | the five names are pairwise distinct |
| Levels.ToLogrus | loggingHelper/levelHandler.go:17-32 | a named level maps to the logrus level whose text begins with the level's lower-cased name; anything else maps to DebugLevel; Panic and Trace are never produced |
| Levels.ToLogrusInjective | levelHandler.go:34-45 | the five named levels map to five distinct logrus levels |
| Levels.ToLogrusPreservesUrgency | loggingHelper/levelHandler.go:8-28 | the order Debug < Info < Warn < Error < Fatal becomes strictly increasing urgency in logrus |
| Levels.UndefinedFallback | levelHandler.go:17-49 | any value outside 0..4 is translated like Debug and named "Unknown" |
| Decimal.Digits | loggingHelper/logrusHooks.go:75 | the digits of a natural number are non-empty, all digits, and have no leading zero |
| Decimal.Format | loggingHelper/logrusHooks.go:75 | `%d` of an int in canonical form: a leading minus exactly for negative values, then digits with no leading zero (only 0 itself starts with "0", and there is no "-0") |
| Decimal.ParseFormat | loggingHelper/logrusHooks.go:75 | the decimal rendering of a line number loses nothing: parsing it gives the number back |
| Decimal.FormatInjective | loggingHelper/logrusHooks.go:75 | distinct integers render differently |
| Errors.WrapIfFailed | otelHelper/traceProvider.go:54-56 | wrapping keeps nil as nil; a wrapped error keeps its cause on the chain and prefixes the message to its text |
| Otel.Combine | otelHelper/traceProvider.go:64-71 | nil iff both are nil; exactly one set: that error; both set: one error whose cause chain is the provider's and whose text is the exporter's text followed by the provider's |
| Otel.Invoke | otelHelper/otelHelper.go:70-91 | the callback always shuts down the provider and then the exporter; it succeeds iff both do; a single failure surfaces wrapped with its own message; a double failure keeps the provider's root cause and carries both messages |
| Otel.Shutdown | otelHelper/otelHelper.go:24-31 | every registered callback runs exactly once, in registration order, whatever earlier callbacks returned; the log holds the errors of the failed runs |
| Otel.FailedResultsExact | otelHelper/otelHelper.go:26-29 | an error is logged iff some run returned it |
| Otel.QuietDrain | otelHelper/otelHelper.go:26-29 | when no SDK shutdown fails, the drain logs nothing |
| Otel.ShutdownRepeatable | otelHelper/otelHelper.go:20-31 | two drains of the same registry run the same callbacks in the same order |
| Otel.InitTraceProvider | otelHelper/traceProvider.go:14-77 | TLS exits before anything is built; exporter failure returns the wrapped "Failed to create OTLP exporter" error and changes nothing; success appends exactly one callback for the provider just installed, which names the service |
| Otel.ParseBool | otelHelper/otelHelper.go:125-129 | exactly the twelve spellings Go accepts (1, t, T, TRUE, true, True and their false counterparts) are booleans, true exactly when they start with "1", "t" or "T"; anything else, the empty string included, is an error |
| Otel.ParseBoolFormatBool | otelHelper/otelHelper.go:125-129 | "true" and "false" read back as themselves, and an unset variable is not a boolean, so TLS falls back to off |
| Otel.ReadConfig | otelHelper/otelHelper.go:111-129 | an empty service name becomes "TestService" and an empty URL "localhost:4317", each independently of the other; set values pass through; TLS is on iff the variable parses as true; a setting is reported as defaulted iff it was empty or unparsable |
| Otel.EmptyEnvironmentDefaults | otelHelper/otelHelper.go:111-129 | an empty environment gives TestService, localhost:4317, no TLS, all three defaulted |
| Otel.ReadConfigOfEnvOf | otelHelper/otelHelper.go:111-129 | an environment that spells out non-empty settings is read back exactly, with no default used |
| Otel.ReadConfigIdempotent | otelHelper/otelHelper.go:111-129 | writing the resolved settings back to the environment and reading again gives the same settings |
| Otel.InitOtelHelper | otelHelper/otelHelper.go:99-136 | the process exits iff TLS is requested or the exporter cannot be built; otherwise the propagator is set, the provider carries the configured service name and is built on the exporter the factory made, and the one callback appended shuts down exactly that provider and exporter |
| Otel.SetupOtelHelper | otelHelper/otelHelper.go:139-144 | a repeated call changes nothing; the first call ends the process iff TLS is requested or the exporter cannot be built, and otherwise sets the propagator, installs a provider for the configured service and appends exactly one callback, which shuts that provider down; no call reports an error |
| Otel.SetupRegistersAtMostOnce | otelHelper/otelHelper.go:139-144 | across any sequence of setup calls the registry stays within one callback |
| Otel.InitialSetupRegistersAtMostOnce | otelHelper/otelHelper.go:93-95 | starting from an empty registry, setup leaves at most one callback to drain |
| Hooks.HookLevels | loggingHelper/logrusHooks.go:26-110 | context hook: Debug plus Warn and more urgent, never Info; Otel hook: Warn and more urgent; shutdown hook: Fatal and Panic |
| Hooks.Annotate | loggingHelper/logrusHooks.go:37-53 | a found call site sets "file" and "line" and keeps every other field; a failed lookup leaves the fields unchanged |
| Hooks.AttributeValue | loggingHelper/logrusHooks.go:69-79 | a string field passes through, an int field becomes its canonical decimal text (`Decimal.Format`), which parses back to it, a missing or other-typed field becomes the default |
| Hooks.OtelAttributes | loggingHelper/logrusHooks.go:82-88 | five attributes keyed message, level, file, line, time, holding the message, the logrus level text, the file and line fields as `getAttributeValue` renders them with the "unknown" default, and the timestamp |
| Hooks.Fire | loggingHelper/logrusHooks.go:37-116 | each hook touches only its own part: the context hook only the fields (as `Annotate`), the Otel hook only the span's events (one `AddEvent` of the five attributes), the shutdown hook only the drains (one full `Shutdown` of the registry) |
| Hooks.AddEvent | loggingHelper/logrusHooks.go:94-101 | one "log" event on the span carrying the attributes iff a span is present, none otherwise |
| Hooks.FireHooks | loggingHelper/logrusHooks.go:37-116 | the hooks that fire are exactly the registered ones whose level set holds the entry's level, in order; only "file" and "line" may be added or changed; events and drains only grow |
| Hooks.Step | loggingHelper/logrusHooks.go:42-52 | since every hook returns nil, each matching hook fires; fields other than file/line are kept |
| Hooks.SilentHooks | loggingHelper/logrusHooks.go:26-63 | hooks whose level sets miss the entry's level leave the entry untouched |
| Hooks.InfoUntouched | loggingHelper/logrusHooks.go:26-34 | an Info entry gets no caller lookup, no event and no drain, for any registered chain |
| Hooks.EventsNeedSpanAndWarn | loggingHelper/logrusHooks.go:56-101 | without a span, or below Warn, no event is ever recorded |
| Hooks.DrainsNeedShutdownHook | loggingHelper/loggingHelper.go:109-110 | without a registered shutdown hook, or below Fatal, the registry is never drained |
| Hooks.FatalDrains | loggingHelper/logrusHooks.go:105-116 | a Fatal or Panic entry drains the whole registry once per registered shutdown hook |
| Hooks.DefaultChain | loggingHelper/loggingHelper.go:33-110 | with context-then-Otel: Debug is annotated but not forwarded; Warn and above are annotated and then forwarded with the annotated fields; nothing drains |
| Hooks.DefaultChainEvent | loggingHelper/loggingHelper.go:73-98 | a Warn-or-above entry with a found call site and a span yields exactly one "log" event with message, level, file, decimal line and time |
| Hooks.DefaultChainUnknownLocation | loggingHelper/loggingHelper.go:76-92 | a failed lookup still forwards the entry, with "unknown" file and line |
| Hooks.RootRevisionDuplicatesLevelKey | logHelper.go:82-83 | the root revision emits two attributes keyed "level": the message, then the level name |
| Hooks.PackageRevisionKeysDistinct | loggingHelper/logrusHooks.go:82-86 | the package revision's five attribute keys are pairwise distinct |
| Logger.GetLogHelper | loggingHelper/loggingHelper.go:118-125 | the first call initializes (threshold Info, no shutdown hook); later calls return the existing instance and change nothing |
| Logger.SetLogLevel | loggingHelper/loggingHelper.go:195-197 | the singleton's threshold becomes the translated level; its hooks and the init count are as after `GetLogHelper` |
| Logger.SetLogLevelFilters | loggingHelper/levelHandler.go:35-37 | after setting a named level, an entry of a named level is emitted iff it is at least as severe |
| Logger.Log | loggingHelper/loggingHelper.go:141-163 | an entry is processed iff enabled by the threshold, then exactly the matching hooks fire; the entry starts with no fields, so it ends up either without fields or with just the file and line found, and a failed lookup leaves it without fields; without a span in the context no event is recorded; an Info entry comes out untouched; a Fatal or Panic call ends the process whatever the threshold, and no other call does |
| Logger.QuietEntries | loggingHelper/logrusHooks.go:26-110 | on any chain, an entry without a span records no event, an Info entry is left exactly as it was, and the fields end up unchanged or annotated once with the lookup |
| Hooks.FieldsKeptOrAnnotated | loggingHelper/logrusHooks.go:37-52 | over any chain, the entry's fields end up either as they were or as the context hook annotates them; no hook adds anything else, however often the context hook is registered |
| Logger.LogRecordsEvent | loggingHelper/loggingHelper.go:151-163 | a Warn-or-above call with a span on the registered logger records exactly one "log" event on that span, carrying the call's message, its level text, the file and line found and the time; the entry keeps only file and line, both hooks fire, and nothing is drained |
| Logger.LogUnknownLocation | loggingHelper/logrusHooks.go:42-47 | a Warn-or-above call with a span whose caller lookup fails still records its one "log" event, with "unknown" as file and line; the entry keeps no fields, and nothing is drained |
| Logger.InitLogHelper | loggingHelper/loggingHelper.go:101-115 | a new logger has threshold Info and exactly two hooks, the context hook then the Otel hook |
| Logger.FreshLogger | loggingHelper/loggingHelper.go:101-115 | a fresh logger drops Debug entries, and its chain never drains the shutdown registry |
| Logger.InitializedOnce | logHelper.go:110-117 | across any sequence of calls, initialization runs at most once and the instance keeps its hooks |
| Logger.FatalAlwaysEmitted | loggingHelper/loggingHelper.go:161-163 | a Fatal call is always emitted, so its hooks run before the process ends |

## Left out

- I/O: the `.env` file load, `os.Getenv` (an environment map), and log output such as the `log.Println` warnings. A warning is reflected only as a setting in `Config.defaulted`.
- The OpenTelemetry SDK (exporter, tracer provider, resource, global propagator and provider). These become opaque handles. What their constructors and `Shutdown` calls report is a model input (`ExporterFactory`, `ShutdownResults`).
- `runtime.Caller` and its skip depth: the lookup is an `Option<CallSite>` input.
- The package context hook logs a Debug entry when the caller lookup fails (loggingHelper/logrusHooks.go:44). That Debug entry re-enters the same hook. This re-logging is not modelled; only the effect on the failing entry is: fields unchanged, nil returned.
- Process termination (`log.Fatal`, `log.Fatalf`, logrus Fatal and Panic) is an `Exit` outcome or the `ends` flag, not behaviour.
- `sync.Once` is a sequential flag. Concurrent first calls and races between setup and shutdown are not modelled.
- Rendering is not modelled: JSON formatting, RFC 3339 time formatting (the timestamp is opaque text) and pkg/errors stack traces.
- `trace.SpanFromContext` never returns nil in Go; without a span it returns a no-op span. The model represents this as "no span", on which an event records nothing.
- logrus stops a hook chain at the first hook that returns an error. Every hook here returns nil, so the model does not include that rule.
- `getLogrusLevel` has a pointer receiver in the package revisions. A pure function cannot mutate it, so its non-mutation is not stated separately.
- loggingHelper/logFunctions.go only forwards to logrus. It is covered by `Logger.Log`, which creates an entry with the given level and no fields.
- Hooks.AttributeValue: Go's `int` is 64 bits; the model's integer field is unbounded, which only widens the inputs covered.

## Findings

| source | as written | input that shows it | evidently intended | confidence | as-written member | corrected member |
|---|---|---|---|---|---|---|
| logHelper.go:82 | the message attribute is keyed "level", the same key as the level attribute on the next line | any Warn entry with a span, e.g. message "disk full": the event holds ("level","disk full") and ("level","warning") | the message keyed "msg", as the later revision at loggingHelper/logrusHooks.go:82 does | not executed; high | Hooks.RootRevisionDuplicatesLevelKey | Hooks.PackageRevisionKeysDistinct |

=== FILE: decimal.dfy ===
/** Decimal rendering of Go integers, as `fmt.Sprintf("%d", v)` produces it,
    together with its inverse so that the rendering can be shown lossless. */
module Decimal {

  import opened Wrappers

  predicate IsDigit(c: char)
  {
    '0' <= c <= '9'
  }

  predicate AllDigits(s: string)
  {
    forall i :: 0 <= i < |s| ==> IsDigit(s[i])
  }

  function DigitChar(d: nat): (c: char)
    requires d < 10
    ensures IsDigit(c)
  {
    ('0' as int + d) as char
  }

  function DigitValue(c: char): (d: nat)
    requires IsDigit(c)
    ensures d < 10
  {
    c as int - '0' as int
  }

  /** The digits of `n`, most significant first, without leading zeros. */
  function Digits(n: nat): (s: string)
    ensures |s| > 0 && AllDigits(s)
    ensures s[0] == '0' ==> n == 0
    decreases n
  {
    if n < 10 then [DigitChar(n)] else Digits(n / 10) + [DigitChar(n % 10)]
  }

  /** The value of a non-empty run of digits. */
  function ParseDigits(s: string): nat
    requires |s| > 0 && AllDigits(s)
    decreases |s|
  {
    if |s| == 1 then DigitValue(s[0])
    else 10 * ParseDigits(s[..|s| - 1]) + DigitValue(s[|s| - 1])
  }

  lemma {:induction false} ParseDigitsOfDigits(n: nat)
    ensures ParseDigits(Digits(n)) == n
    decreases n
  {
    if n >= 10 {
      var s := Digits(n);
      assert s[..|s| - 1] == Digits(n / 10);
      assert s[|s| - 1] == DigitChar(n % 10);
      ParseDigitsOfDigits(n / 10);
    }
  }

  /** `fmt.Sprintf("%d", n)`: a minus sign for negative values, then the digits of |n|. */
  function Format(n: int): (s: string)
    ensures |s| > 0
    ensures n < 0 <==> s[0] == '-'
    ensures n < 0 ==> |s| > 1 && AllDigits(s[1..])
    ensures n >= 0 ==> AllDigits(s)
    // canonical form: no leading zero, and no "-0"
    ensures n >= 0 && s[0] == '0' ==> n == 0
    ensures n < 0 ==> s[1] != '0'
  {
    if n < 0 then "-" + Digits(-n) else Digits(n)
  }

  /** Reads back a decimal integer; `None` for anything that is not one. */
  function Parse(s: string): Option<int>
  {
    if |s| > 1 && s[0] == '-' && AllDigits(s[1..]) then Some(0 - ParseDigits(s[1..]))
    else if |s| > 0 && AllDigits(s) then Some(ParseDigits(s) as int)
    else None
  }

  /** Rendering an integer loses nothing: parsing it back yields the integer. */
  lemma {:induction false} ParseFormat(n: int)
    ensures Parse(Format(n)) == Some(n)
  {
    var s := Format(n);
    if n < 0 {
      assert s[1..] == Digits(-n);
      ParseDigitsOfDigits(-n);
    } else {
      assert s[0] != '-';
      ParseDigitsOfDigits(n);
    }
  }

  /** Distinct integers render as distinct strings. */
  lemma FormatInjective(a: int, b: int)
    ensures Format(a) == Format(b) <==> a == b
  {
    ParseFormat(a);
    ParseFormat(b);
  }
}

=== FILE: errors.dfy ===
/** Errors as cause chains, after github.com/pkg/errors: an error is either a
    base error with its own text, or a cause wrapped with a message. */
module Errors {

  import opened Wrappers

  datatype Error = Base(text: string) | Wrapped(message: string, cause: Error)

  /** The text `Error()` returns: a wrapper prints its message, ": ", then its cause. */
  function Text(e: Error): string
  {
    match e
    case Base(t) => t
    case Wrapped(m, c) => m + ": " + Text(c)
  }

  /** The innermost cause (`errors.Cause`). */
  function Root(e: Error): Error
  {
    match e
    case Base(_) => e
    case Wrapped(_, c) => Root(c)
  }

  /** `inner` lies on the unwrap chain of `e` (including `e` itself). */
  predicate OnChain(inner: Error, e: Error)
  {
    inner == e || (e.Wrapped? && OnChain(inner, e.cause))
  }

  /** `errors.Wrap(err, message)`, which returns nil for a nil error. */
  function WrapIfFailed(err: Option<Error>, message: string): (r: Option<Error>)
    ensures r.Some? <==> err.Some?
    ensures err.Some? ==> OnChain(err.value, r.value) && Root(r.value) == Root(err.value)
    ensures err.Some? ==> Text(r.value) == message + ": " + Text(err.value)
  {
    match err
    case None => None
    case Some(e) => Some(Wrapped(message, e))
  }
}

=== FILE: hooks.dfy ===
/** The logrus hooks that bridge log entries to trace spans
    (loggingHelper/logrusHooks.go; the earlier revisions in
    loggingHelper/loggingHelper.go and the root logHelper.go). A hook chain is
    modelled as a pure step from an entry, the caller-lookup result and the
    shutdown registry to the entry's new fields, the span events recorded and
    the shutdown drains run. */
module Hooks {

  import opened Wrappers
  import opened Levels
  import opened Decimal
  import Otel

  /** A field value (Go's `interface{}`), narrowed to the two types the Otel
      hook tells apart; `Other` stands for every other Go type. */
  datatype Value = Str(s: string) | Int(i: int) | Other

  /** What a successful caller lookup (`runtime.Caller`) reports. */
  datatype CallSite = CallSite(file: string, line: int)

  /** A log entry as the hooks see it. `span` is the recording span found in
      the entry's context, if any; `time` is the timestamp already rendered
      as RFC 3339 text. */
  datatype Entry = Entry(level: LogrusLevel, message: string, data: map<string, Value>, time: string, span: Option<nat>)

  datatype Attribute = Attribute(key: string, value: string)

  /** An event recorded on the span with the given id. */
  datatype Event = Event(span: nat, name: string, attributes: seq<Attribute>)

  datatype Hook = ContextHook | OtelHook | ShutdownHook

  /** The package revision keys the message attribute "msg"; the root-package
      revision keys it "level", like the level attribute that follows it. */
  datatype Revision = PackageRevision | RootRevision

  const FileKey := "file"
  const LineKey := "line"
  const Unknown := "unknown"
  const EventName := "log"

  /** Each hook's `Levels()`. */
  function HookLevels(h: Hook): (r: seq<LogrusLevel>)
    // call-site annotation: Debug, and Warn or more urgent; never Info
    ensures h == ContextHook ==> forall l :: l in r <==> l == DebugLevel || Rank(l) <= Rank(WarnLevel)
    // trace bridge: Warn or more urgent
    ensures h == OtelHook ==> forall l :: l in r <==> Rank(l) <= Rank(WarnLevel)
    // shutdown: Fatal or more urgent
    ensures h == ShutdownHook ==> forall l :: l in r <==> Rank(l) <= Rank(FatalLevel)
  {
    match h
    case ContextHook => [DebugLevel, WarnLevel, ErrorLevel, FatalLevel, PanicLevel]
    case OtelHook => [WarnLevel, ErrorLevel, FatalLevel, PanicLevel]
    case ShutdownHook => [FatalLevel, PanicLevel]
  }

  /** The context hook's effect on the fields: on a successful lookup it sets
      "file" and "line" and keeps every other field; on a failed one it
      changes nothing. */
  function Annotate(data: map<string, Value>, lookup: Option<CallSite>): (d: map<string, Value>)
    ensures lookup.None? ==> d == data
    ensures lookup.Some? ==> d.Keys == data.Keys + {FileKey, LineKey}
    ensures lookup.Some? ==> d[FileKey] == Str(lookup.value.file) && d[LineKey] == Int(lookup.value.line)
    ensures forall k :: k in data && k != FileKey && k != LineKey ==> k in d && d[k] == data[k]
  {
    match lookup
    case None => data
    case Some(site) => data[FileKey := Str(site.file)][LineKey := Int(site.line)]
  }

  /** `getAttributeValue`: a string field as it is, an int field in decimal,
      and the default for a missing field or one of any other type. */
  function AttributeValue(data: map<string, Value>, key: string, default: string): (a: Attribute)
    ensures a.key == key
    ensures key in data && data[key].Str? ==> a.value == data[key].s
    ensures key in data && data[key].Int? ==> a.value == Format(data[key].i) && Parse(a.value) == Some(data[key].i)
    ensures key !in data || data[key].Other? ==> a.value == default
  {
    if key in data && data[key].Str? then Attribute(key, data[key].s)
    else if key in data && data[key].Int? then
      ParseFormat(data[key].i);
      Attribute(key, Format(data[key].i))
    else Attribute(key, default)
  }

  function MessageKey(rev: Revision): string
  {
    match rev
    case PackageRevision => "msg"
    case RootRevision => "level"
  }

  function Keys(attrs: seq<Attribute>): (r: seq<string>)
    ensures |r| == |attrs| && forall i :: 0 <= i < |attrs| ==> r[i] == attrs[i].key
  {
    if attrs == [] then [] else [attrs[0].key] + Keys(attrs[1..])
  }

  /** The five attributes the Otel hook builds from the entry and its current fields. */
  function OtelAttributes(entry: Entry, data: map<string, Value>, rev: Revision): (attrs: seq<Attribute>)
    ensures |attrs| == 5 && Keys(attrs) == [MessageKey(rev), "level", FileKey, LineKey, "time"]
    ensures attrs[0].value == entry.message && attrs[1].value == LogrusText(entry.level)
    ensures attrs[2] == AttributeValue(data, FileKey, Unknown) && attrs[3] == AttributeValue(data, LineKey, Unknown)
    ensures attrs[4].value == entry.time
  {
    [ Attribute(MessageKey(rev), entry.message),
      Attribute("level", LogrusText(entry.level)),
      AttributeValue(data, FileKey, Unknown),
      AttributeValue(data, LineKey, Unknown),
      Attribute("time", entry.time) ]
  }

  /** `addEvent`: one "log" event on the span when there is one, nothing otherwise. */
  function AddEvent(span: Option<nat>, attrs: seq<Attribute>): (evs: seq<Event>)
    ensures |evs| == (if span.Some? then 1 else 0)
    ensures forall e :: e in evs ==> e.span == span.value && e.name == EventName && e.attributes == attrs
  {
    match span
    case None => []
    case Some(id) => [Event(id, EventName, attrs)]
  }

  /** What the hooks have done to an entry so far: its fields, the events
      recorded, the hooks fired in order, and the shutdown drains run. */
  datatype Effect = Effect(data: map<string, Value>, events: seq<Event>, fired: seq<Hook>, drains: seq<Otel.Drain>)

  /** `Fire` of one hook. Every hook returns nil, and each touches only its own part:
      the context hook the fields, the Otel hook the span's events, the
      shutdown hook the drains. */
  function Fire(h: Hook, entry: Entry, acc: Effect, lookup: Option<CallSite>, rev: Revision,
                registry: seq<Otel.Callback>, results: Otel.ShutdownResults): (r: Effect)
    ensures r.fired == acc.fired + [h]
    ensures h == ContextHook ==>
              r.data == Annotate(acc.data, lookup) && r.events == acc.events && r.drains == acc.drains
    ensures h == OtelHook ==>
              && r.data == acc.data && r.drains == acc.drains
              && r.events == acc.events + AddEvent(entry.span, OtelAttributes(entry, acc.data, rev))
    ensures h == ShutdownHook ==>
              r.data == acc.data && r.events == acc.events && r.drains == acc.drains + [Otel.Shutdown(registry, results)]
  {
    match h
    case ContextHook =>
      acc.(data := Annotate(acc.data, lookup), fired := acc.fired + [h])
    case OtelHook =>
      acc.(events := acc.events + AddEvent(entry.span, OtelAttributes(entry, acc.data, rev)), fired := acc.fired + [h])
    case ShutdownHook =>
      acc.(drains := acc.drains + [Otel.Shutdown(registry, results)], fired := acc.fired + [h])
  }

  /** The registered hooks whose level set holds `level`, in registration order. */
  function Matching(hooks: seq<Hook>, level: LogrusLevel): seq<Hook>
  {
    if hooks == [] then []
    else (if level in HookLevels(hooks[0]) then [hooks[0]] else []) + Matching(hooks[1..], level)
  }

  /** logrus's dispatch: each registered hook whose level set holds the
      entry's level fires, in registration order, on the fields the earlier
      hooks left. */
  function FireHooks(hooks: seq<Hook>, entry: Entry, acc: Effect, lookup: Option<CallSite>, rev: Revision,
                     registry: seq<Otel.Callback>, results: Otel.ShutdownResults): (r: Effect)
    ensures r.fired == acc.fired + Matching(hooks, entry.level)
    ensures acc.data.Keys <= r.data.Keys <= acc.data.Keys + {FileKey, LineKey}
    ensures forall k :: k in acc.data && k != FileKey && k != LineKey ==> r.data[k] == acc.data[k]
    ensures acc.events <= r.events && acc.drains <= r.drains
    decreases |hooks|
  {
    if hooks == [] then acc
    else
      var acc' := if entry.level in HookLevels(hooks[0]) then Fire(hooks[0], entry, acc, lookup, rev, registry, results) else acc;
      FireHooks(hooks[1..], entry, acc', lookup, rev, registry, results)
  }

  /** One log entry through the registered hooks. */
  function Step(hooks: seq<Hook>, entry: Entry, lookup: Option<CallSite>, rev: Revision,
                registry: seq<Otel.Callback>, results: Otel.ShutdownResults): (e: Effect)
    ensures e.fired == Matching(hooks, entry.level)
    ensures entry.data.Keys <= e.data.Keys <= entry.data.Keys + {FileKey, LineKey}
    ensures forall k :: k in entry.data && k != FileKey && k != LineKey ==> e.data[k] == entry.data[k]
  {
    FireHooks(hooks, entry, Effect(entry.data, [], [], []), lookup, rev, registry, results)
  }

  // ---------------------------------------------------------------------------
  // Properties of the hook chain
  // ---------------------------------------------------------------------------

  /** A hook whose level set does not hold the level leaves everything as it was. */
  lemma {:induction false} SilentHooks(hooks: seq<Hook>, entry: Entry, acc: Effect, lookup: Option<CallSite>, rev: Revision,
                                       registry: seq<Otel.Callback>, results: Otel.ShutdownResults)
    requires forall h :: h in hooks ==> entry.level !in HookLevels(h)
    ensures FireHooks(hooks, entry, acc, lookup, rev, registry, results) == acc
    decreases |hooks|
  {
    if hooks != [] {
      assert hooks[0] in hooks;
      SilentHooks(hooks[1..], entry, acc, lookup, rev, registry, results);
    }
  }

  /** Info (and Trace) entries are never touched: no caller lookup, no event, no drain. */
  lemma InfoUntouched(hooks: seq<Hook>, entry: Entry, lookup: Option<CallSite>, rev: Revision,
                      registry: seq<Otel.Callback>, results: Otel.ShutdownResults)
    requires entry.level == InfoLevel || entry.level == TraceLevel
    ensures Step(hooks, entry, lookup, rev, registry, results) == Effect(entry.data, [], [], [])
  {
    forall h | h in hooks
      ensures entry.level !in HookLevels(h)
    {
      assert h.ContextHook? || h.OtelHook? || h.ShutdownHook?;
    }
    SilentHooks(hooks, entry, Effect(entry.data, [], [], []), lookup, rev, registry, results);
  }

  /** Without a span in the context, no hook records an event; and only
      entries of Warn or more urgent ever do. */
  lemma {:induction false} EventsNeedSpanAndWarn(hooks: seq<Hook>, entry: Entry, acc: Effect, lookup: Option<CallSite>, rev: Revision,
                                                 registry: seq<Otel.Callback>, results: Otel.ShutdownResults)
    requires entry.span.None? || Rank(entry.level) > Rank(WarnLevel)
    ensures FireHooks(hooks, entry, acc, lookup, rev, registry, results).events == acc.events
    decreases |hooks|
  {
    if hooks != [] {
      var acc' := if entry.level in HookLevels(hooks[0]) then Fire(hooks[0], entry, acc, lookup, rev, registry, results) else acc;
      assert acc'.events == acc.events;
      EventsNeedSpanAndWarn(hooks[1..], entry, acc', lookup, rev, registry, results);
    }
  }

  /** Without the shutdown hook registered, or below Fatal, no entry drains the registry. */
  lemma {:induction false} DrainsNeedShutdownHook(hooks: seq<Hook>, entry: Entry, acc: Effect, lookup: Option<CallSite>, rev: Revision,
                                                  registry: seq<Otel.Callback>, results: Otel.ShutdownResults)
    requires ShutdownHook !in hooks || Rank(entry.level) > Rank(FatalLevel)
    ensures FireHooks(hooks, entry, acc, lookup, rev, registry, results).drains == acc.drains
    decreases |hooks|
  {
    if hooks != [] {
      var acc' := if entry.level in HookLevels(hooks[0]) then Fire(hooks[0], entry, acc, lookup, rev, registry, results) else acc;
      assert acc'.drains == acc.drains;
      DrainsNeedShutdownHook(hooks[1..], entry, acc', lookup, rev, registry, results);
    }
  }

  /** Annotating twice with the same lookup is annotating once. */
  lemma AnnotateIdempotent(data: map<string, Value>, lookup: Option<CallSite>)
    ensures Annotate(Annotate(data, lookup), lookup) == Annotate(data, lookup)
  {
  }

  /** Whatever the chain, the fields end up either as they were or annotated
      once with the lookup's result: no hook adds anything else. */
  lemma {:induction false} FieldsKeptOrAnnotated(hooks: seq<Hook>, entry: Entry, acc: Effect, base: map<string, Value>,
                                                 lookup: Option<CallSite>, rev: Revision,
                                                 registry: seq<Otel.Callback>, results: Otel.ShutdownResults)
    requires acc.data == base || acc.data == Annotate(base, lookup)
    ensures var d := FireHooks(hooks, entry, acc, lookup, rev, registry, results).data;
            d == base || d == Annotate(base, lookup)
    decreases |hooks|
  {
    if hooks != [] {
      var acc' := if entry.level in HookLevels(hooks[0]) then Fire(hooks[0], entry, acc, lookup, rev, registry, results) else acc;
      if entry.level in HookLevels(hooks[0]) && hooks[0] == ContextHook {
        AnnotateIdempotent(base, lookup);
        assert acc'.data == Annotate(base, lookup);
      } else {
        assert acc'.data == acc.data;
      }
      FieldsKeptOrAnnotated(hooks[1..], entry, acc', base, lookup, rev, registry, results);
    }
  }

  /** How many times `h` is registered. */
  function Occurrences(hooks: seq<Hook>, h: Hook): nat
  {
    if hooks == [] then 0 else (if hooks[0] == h then 1 else 0) + Occurrences(hooks[1..], h)
  }

  /** A Fatal or Panic entry drains the whole registry once per registered
      shutdown hook, before logrus ends the process. */
  lemma {:induction false} FatalDrains(hooks: seq<Hook>, entry: Entry, acc: Effect, lookup: Option<CallSite>, rev: Revision,
                                       registry: seq<Otel.Callback>, results: Otel.ShutdownResults)
    requires Rank(entry.level) <= Rank(FatalLevel)
    requires forall i :: 0 <= i < |acc.drains| ==> acc.drains[i] == Otel.Shutdown(registry, results)
    ensures var r := FireHooks(hooks, entry, acc, lookup, rev, registry, results);
            && |r.drains| == |acc.drains| + Occurrences(hooks, ShutdownHook)
            && forall i :: 0 <= i < |r.drains| ==> r.drains[i] == Otel.Shutdown(registry, results)
    decreases |hooks|
  {
    if hooks != [] {
      var acc' := if entry.level in HookLevels(hooks[0]) then Fire(hooks[0], entry, acc, lookup, rev, registry, results) else acc;
      if hooks[0] == ShutdownHook {
        assert acc'.drains == acc.drains + [Otel.Shutdown(registry, results)];
      } else {
        assert acc'.drains == acc.drains;
      }
      FatalDrains(hooks[1..], entry, acc', lookup, rev, registry, results);
    }
  }

  /** The chain `initLogHelper` registers, context hook then Otel hook. */
  const DefaultHooks := [ContextHook, OtelHook]

  /** The registered chain, entry by entry: Debug gets the call site but no
      event; Warn and above get the call site, then one "log" event carrying
      it when a span is present; nothing ever drains the registry. */
  lemma DefaultChain(entry: Entry, lookup: Option<CallSite>, rev: Revision,
                     registry: seq<Otel.Callback>, results: Otel.ShutdownResults)
    ensures var e := Step(DefaultHooks, entry, lookup, rev, registry, results);
            && e.drains == []
            && (entry.level == DebugLevel ==> e == Effect(Annotate(entry.data, lookup), [], [ContextHook], []))
            && (Rank(entry.level) <= Rank(WarnLevel) ==>
                  && e.data == Annotate(entry.data, lookup)
                  && e.fired == DefaultHooks
                  && e.events == AddEvent(entry.span, OtelAttributes(entry, Annotate(entry.data, lookup), rev)))
  {
  }

  /** End to end: a Warn-or-above entry with a found call site and a span
      records exactly one "log" event with message, level name, file, line
      in decimal and time. */
  lemma DefaultChainEvent(entry: Entry, site: CallSite, rev: Revision,
                          registry: seq<Otel.Callback>, results: Otel.ShutdownResults)
    requires Rank(entry.level) <= Rank(WarnLevel) && entry.span.Some?
    ensures Step(DefaultHooks, entry, Some(site), rev, registry, results).events
            == [Event(entry.span.value, EventName,
                      [ Attribute(MessageKey(rev), entry.message),
                        Attribute("level", LogrusText(entry.level)),
                        Attribute(FileKey, site.file),
                        Attribute(LineKey, Format(site.line)),
                        Attribute("time", entry.time) ])]
  {
    DefaultChain(entry, Some(site), rev, registry, results);
  }

  /** A failed lookup on an entry without location fields yields "unknown"
      for file and line; the entry is still forwarded. */
  lemma DefaultChainUnknownLocation(entry: Entry, rev: Revision,
                                    registry: seq<Otel.Callback>, results: Otel.ShutdownResults)
    requires Rank(entry.level) <= Rank(WarnLevel) && entry.span.Some?
    requires FileKey !in entry.data && LineKey !in entry.data
    ensures var evs := Step(DefaultHooks, entry, None, rev, registry, results).events;
            |evs| == 1 && evs[0].attributes[2] == Attribute(FileKey, Unknown) && evs[0].attributes[3] == Attribute(LineKey, Unknown)
  {
    DefaultChain(entry, None, rev, registry, results);
  }

  /** In the root-package revision the event carries two "level" attributes:
      the message first, then the level name. */
  lemma RootRevisionDuplicatesLevelKey(entry: Entry, data: map<string, Value>)
    ensures var attrs := OtelAttributes(entry, data, RootRevision);
            attrs[0].key == attrs[1].key == "level"
            && attrs[0].value == entry.message && attrs[1].value == LogrusText(entry.level)
  {
    assert Keys(OtelAttributes(entry, data, RootRevision))[0] == "level";
  }

  /** In the package revision the five attribute keys are pairwise distinct,
      so the message and the level name can each be found by their key. */
  lemma PackageRevisionKeysDistinct(entry: Entry, data: map<string, Value>)
    ensures var ks := Keys(OtelAttributes(entry, data, PackageRevision));
            forall i, j :: 0 <= i < j < |ks| ==> ks[i] != ks[j]
  {
  }
}

=== FILE: levels.dfy ===
/** The library's severity enumeration and its translation to logrus levels
    (levelHandler.go, loggingHelper/levelHandler.go, loggingHelper/loggingHelper.go). */
module Levels {

  /** Go's `type Level uint32`: any 32-bit value is a Level, not only the five named ones. */
  newtype Level = x: int | 0 <= x < 0x1_0000_0000

  const Debug: Level := 0
  const Info: Level := 1
  const Warn: Level := 2
  const Error: Level := 3
  const Fatal: Level := 4

  /** One of the five named constants. */
  predicate Defined(l: Level)
  {
    l <= Fatal
  }

  /** logrus's severities. */
  datatype LogrusLevel = PanicLevel | FatalLevel | ErrorLevel | WarnLevel | InfoLevel | DebugLevel | TraceLevel

  /** logrus's numeric encoding: smaller is more urgent, and a logger emits an
      entry when the entry's rank is at most the threshold's. */
  function Rank(l: LogrusLevel): nat
  {
    match l
    case PanicLevel => 0
    case FatalLevel => 1
    case ErrorLevel => 2
    case WarnLevel => 3
    case InfoLevel => 4
    case DebugLevel => 5
    case TraceLevel => 6
  }

  /** logrus's `Level.String()`, the text the Otel hook records as the level attribute. */
  function LogrusText(l: LogrusLevel): string
  {
    match l
    case PanicLevel => "panic"
    case FatalLevel => "fatal"
    case ErrorLevel => "error"
    case WarnLevel => "warning"
    case InfoLevel => "info"
    case DebugLevel => "debug"
    case TraceLevel => "trace"
  }

  function LowerChar(c: char): char
  {
    if 'A' <= c <= 'Z' then (c as int - 'A' as int + 'a' as int) as char else c
  }

  function Lower(s: string): (r: string)
    ensures |r| == |s|
    ensures forall i :: 0 <= i < |s| ==> r[i] == LowerChar(s[i])
  {
    if s == [] then [] else [LowerChar(s[0])] + Lower(s[1..])
  }

  /** `Level.String()` of the root package. */
  function Name(l: Level): (s: string)
    ensures Defined(l) <==> s != "Unknown"
    ensures Defined(l) ==> s == ["Debug", "Info", "Warn", "Error", "Fatal"][l]
  {
    if l == Debug then "Debug"
    else if l == Info then "Info"
    else if l == Warn then "Warn"
    else if l == Error then "Error"
    else if l == Fatal then "Fatal"
    else "Unknown"
  }

  /** `getLogrusLevel`: a named level goes to the logrus level whose text starts
      with the level's lower-cased name; anything else falls back to Debug. */
  function ToLogrus(l: Level): (r: LogrusLevel)
    ensures Defined(l) ==> Lower(Name(l)) <= LogrusText(r)
    ensures !Defined(l) ==> r == DebugLevel
    ensures r != PanicLevel && r != TraceLevel
  {
    if l == Debug then DebugLevel
    else if l == Info then InfoLevel
    else if l == Warn then WarnLevel
    else if l == Error then ErrorLevel
    else if l == Fatal then FatalLevel
    else DebugLevel
  }

  /** Each name, lower-cased, is the start of the text of the logrus level the
      same level translates to ("warn" of "warning", the others whole). */
  lemma NameMatchesLogrusText(l: Level)
    requires Defined(l)
    ensures Lower(Name(l)) == (if l == Warn then "warn" else LogrusText(ToLogrus(l)))
  {
  }

  /** The five names are pairwise distinct. */
  lemma NameInjective(a: Level, b: Level)
    requires Defined(a) && Defined(b)
    ensures Name(a) == Name(b) <==> a == b
  {
  }

  /** The five named levels reach five distinct logrus levels. */
  lemma ToLogrusInjective(a: Level, b: Level)
    requires Defined(a) && Defined(b)
    ensures ToLogrus(a) == ToLogrus(b) <==> a == b
  {
  }

  /** Increasing urgency among the named levels is increasing urgency in logrus. */
  lemma ToLogrusPreservesUrgency(a: Level, b: Level)
    requires Defined(a) && Defined(b) && a < b
    ensures Rank(ToLogrus(b)) < Rank(ToLogrus(a))
  {
  }

  /** Every value outside the five constants is treated as Debug and named "Unknown". */
  lemma UndefinedFallback(l: Level)
    requires !Defined(l)
    ensures ToLogrus(l) == ToLogrus(Debug) && Name(l) == "Unknown"
  {
  }
}

=== FILE: logger.dfy ===
/** The logger singleton (loggingHelper/loggingHelper.go, the root
    logHelper.go, and the `SetLogLevel` of levelHandler.go and
    loggingHelper/levelHandler.go). `sync.Once` is a sequential flag; a logging
    call is "make an entry at this level and run the enabled hooks". */
module Logger {

  import opened Wrappers
  import opened Levels
  import Decimal
  import Hooks
  import Otel

  /** The logrus logger behind the singleton: its threshold and its hooks in
      registration order. */
  datatype LogHelper = LogHelper(threshold: LogrusLevel, hooks: seq<Hooks.Hook>)

  /** The package globals: the singleton once initialized, and how many times
      initialization has run. */
  datatype LoggerState = LoggerState(helper: Option<LogHelper>, inits: nat)

  const Uninitialized := LoggerState(None, 0)

  /** `initLogHelper`: threshold Info, the context hook and then the Otel hook,
      and no shutdown hook. */
  function InitLogHelper(): (h: LogHelper)
    ensures h.threshold == InfoLevel
    ensures h.hooks == [Hooks.ContextHook, Hooks.OtelHook]
  {
    LogHelper(InfoLevel, Hooks.DefaultHooks)
  }

  /** `GetLogHelper`: initialize on the first call, afterwards return the
      existing instance and change nothing. */
  function GetLogHelper(s: LoggerState): (r: (LoggerState, LogHelper))
    ensures r.0.helper == Some(r.1)
    ensures s.helper.Some? ==> r.0 == s && r.1 == s.helper.value
    ensures s.helper.None? ==> r.0.inits == s.inits + 1 && r.1.threshold == InfoLevel
    ensures s.helper.None? ==> Hooks.ShutdownHook !in r.1.hooks
  {
    match s.helper
    case Some(h) => (s, h)
    case None =>
      var h := InitLogHelper();
      (LoggerState(Some(h), s.inits + 1), h)
  }

  /** logrus's `IsLevelEnabled`: an entry is emitted, and its hooks fire, when
      it is at least as urgent as the threshold. */
  predicate Enabled(h: LogHelper, level: LogrusLevel)
  {
    Rank(level) <= Rank(h.threshold)
  }

  /** `SetLogLevel`: the singleton's threshold becomes the translated level;
      its hooks stay as they are. */
  function SetLogLevel(s: LoggerState, level: Level): (s': LoggerState)
    ensures s'.helper.Some? && s'.helper.value.threshold == ToLogrus(level)
    ensures s'.helper.value.hooks == GetLogHelper(s).1.hooks
    ensures s'.inits == GetLogHelper(s).0.inits
  {
    var (s1, h) := GetLogHelper(s);
    s1.(helper := Some(h.(threshold := ToLogrus(level))))
  }

  /** After `SetLogLevel(level)` for a named level, an entry made through a
      named level is emitted exactly when it is at least as severe. */
  lemma SetLogLevelFilters(s: LoggerState, level: Level, entryLevel: Level)
    requires Defined(level) && Defined(entryLevel)
    ensures Enabled(SetLogLevel(s, level).helper.value, ToLogrus(entryLevel)) <==> level <= entryLevel
  {
  }

  /** What a logging call did: the new globals, the hooks' effect when the
      entry was emitted, and whether the call ends the process (a Fatal call
      exits and a Panic call panics, whatever the threshold, after the hooks
      of an emitted entry ran). */
  datatype LogResult = LogResult(state: LoggerState, effect: Option<Hooks.Effect>, ends: bool)

  /** A call such as `GetLogHelper().Warn(ctx, msg)`: a fresh entry with no
      fields, the span of `ctx`, and the enabled hooks run over it. */
  function Log(s: LoggerState, level: LogrusLevel, message: string, time: string, span: Option<nat>,
               lookup: Option<Hooks.CallSite>, rev: Hooks.Revision,
               registry: seq<Otel.Callback>, results: Otel.ShutdownResults): (r: LogResult)
    ensures r.state == GetLogHelper(s).0
    ensures r.effect.Some? <==> Enabled(GetLogHelper(s).1, level)
    ensures r.effect.Some? ==> r.effect.value.fired == Hooks.Matching(GetLogHelper(s).1.hooks, level)
    // logrus exits after a Fatal call and panics after a Panic call whatever the threshold
    ensures r.ends <==> Rank(level) <= Rank(FatalLevel)
    // the entry starts with no fields, so the hooks leave at most the call site on it
    ensures r.effect.Some? ==> r.effect.value.data.Keys <= {Hooks.FileKey, Hooks.LineKey}
    ensures r.effect.Some? ==> r.effect.value.data == map[] || r.effect.value.data == Hooks.Annotate(map[], lookup)
    // a failed caller lookup leaves the entry without fields
    ensures r.effect.Some? && lookup.None? ==> r.effect.value.data == map[]
    // without a span in the call's context no event is recorded
    ensures r.effect.Some? && span.None? ==> r.effect.value.events == []
    // an Info entry is emitted untouched
    ensures r.effect.Some? && level == InfoLevel ==> r.effect.value == Hooks.Effect(map[], [], [], [])
  {
    var (s1, h) := GetLogHelper(s);
    if !Enabled(h, level) then LogResult(s1, None, Rank(level) <= Rank(FatalLevel))
    else
      var entry := Hooks.Entry(level, message, map[], time, span);
      QuietEntries(h.hooks, entry, lookup, rev, registry, results);
      LogResult(s1, Some(Hooks.Step(h.hooks, entry, lookup, rev, registry, results)), Rank(level) <= Rank(FatalLevel))
  }

  /** The two cases in which the hooks record nothing: no span, or an Info entry. */
  lemma QuietEntries(hooks: seq<Hooks.Hook>, entry: Hooks.Entry, lookup: Option<Hooks.CallSite>, rev: Hooks.Revision,
                     registry: seq<Otel.Callback>, results: Otel.ShutdownResults)
    ensures var e := Hooks.Step(hooks, entry, lookup, rev, registry, results);
            && (entry.span.None? ==> e.events == [])
            && (entry.level == InfoLevel ==> e == Hooks.Effect(entry.data, [], [], []))
            && (e.data == entry.data || e.data == Hooks.Annotate(entry.data, lookup))
  {
    Hooks.FieldsKeptOrAnnotated(hooks, entry, Hooks.Effect(entry.data, [], [], []), entry.data, lookup, rev, registry, results);
    if entry.span.None? {
      Hooks.EventsNeedSpanAndWarn(hooks, entry, Hooks.Effect(entry.data, [], [], []), lookup, rev, registry, results);
    }
    if entry.level == InfoLevel {
      Hooks.InfoUntouched(hooks, entry, lookup, rev, registry, results);
    }
  }

  /** End to end, failed caller lookup: a Warn-or-above call with a span on
      the registered logger still records its one "log" event, with "unknown"
      for file and line; the entry keeps no fields and nothing is drained. */
  lemma LogUnknownLocation(s: LoggerState, level: LogrusLevel, message: string, time: string, id: nat,
                           rev: Hooks.Revision, registry: seq<Otel.Callback>, results: Otel.ShutdownResults)
    requires Singleton(s) && Enabled(GetLogHelper(s).1, level) && Rank(level) <= Rank(WarnLevel)
    ensures Log(s, level, message, time, Some(id), None, rev, registry, results).effect.Some?
    ensures Log(s, level, message, time, Some(id), None, rev, registry, results).effect.value.events
            == [Hooks.Event(id, Hooks.EventName,
                  [ Hooks.Attribute(Hooks.MessageKey(rev), message),
                    Hooks.Attribute("level", LogrusText(level)),
                    Hooks.Attribute(Hooks.FileKey, Hooks.Unknown),
                    Hooks.Attribute(Hooks.LineKey, Hooks.Unknown),
                    Hooks.Attribute("time", time) ])]
    ensures Log(s, level, message, time, Some(id), None, rev, registry, results).effect.value.data == map[]
    ensures Log(s, level, message, time, Some(id), None, rev, registry, results).effect.value.fired == Hooks.DefaultHooks
    ensures Log(s, level, message, time, Some(id), None, rev, registry, results).effect.value.drains == []
  {
    var entry := Hooks.Entry(level, message, map[], time, Some(id));
    Hooks.DefaultChain(entry, None, rev, registry, results);
    Hooks.DefaultChainUnknownLocation(entry, rev, registry, results);
  }

  /** End to end: a Warn-or-above call with a span, on the registered chain,
      records exactly one "log" event on that span carrying the call's
      message, its level, the call site found and the time; the entry keeps
      only the call site, and the registry is not drained. */
  lemma LogRecordsEvent(s: LoggerState, level: LogrusLevel, message: string, time: string, id: nat,
                        site: Hooks.CallSite, rev: Hooks.Revision,
                        registry: seq<Otel.Callback>, results: Otel.ShutdownResults)
    requires Singleton(s) && Enabled(GetLogHelper(s).1, level) && Rank(level) <= Rank(WarnLevel)
    ensures Log(s, level, message, time, Some(id), Some(site), rev, registry, results).effect.Some?
    ensures Log(s, level, message, time, Some(id), Some(site), rev, registry, results).effect.value.events
            == [Hooks.Event(id, Hooks.EventName,
                  [ Hooks.Attribute(Hooks.MessageKey(rev), message),
                    Hooks.Attribute("level", LogrusText(level)),
                    Hooks.Attribute(Hooks.FileKey, site.file),
                    Hooks.Attribute(Hooks.LineKey, Decimal.Format(site.line)),
                    Hooks.Attribute("time", time) ])]
    ensures Log(s, level, message, time, Some(id), Some(site), rev, registry, results).effect.value.data
            == map[Hooks.FileKey := Hooks.Str(site.file), Hooks.LineKey := Hooks.Int(site.line)]
    ensures Log(s, level, message, time, Some(id), Some(site), rev, registry, results).effect.value.fired == Hooks.DefaultHooks
    ensures Log(s, level, message, time, Some(id), Some(site), rev, registry, results).effect.value.drains == []
  {
    var entry := Hooks.Entry(level, message, map[], time, Some(id));
    Hooks.DefaultChain(entry, Some(site), rev, registry, results);
    Hooks.DefaultChainEvent(entry, site, rev, registry, results);
  }

  /** A fresh logger drops Debug entries before any hook sees them, and with
      its registered hooks no entry ever drains the shutdown registry. */
  lemma FreshLogger(level: LogrusLevel, message: string, time: string, span: Option<nat>,
                    lookup: Option<Hooks.CallSite>, rev: Hooks.Revision,
                    registry: seq<Otel.Callback>, results: Otel.ShutdownResults)
    ensures var r := Log(Uninitialized, level, message, time, span, lookup, rev, registry, results);
            && (level == DebugLevel ==> r.effect.None?)
            && (r.effect.Some? ==> r.effect.value.drains == [])
  {
    var h := InitLogHelper();
    if Enabled(h, level) {
      var entry := Hooks.Entry(level, message, map[], time, span);
      Hooks.DrainsNeedShutdownHook(h.hooks, entry, Hooks.Effect(map[], [], [], []), lookup, rev, registry, results);
    }
  }

  /** The operations a program performs on the logger package. */
  datatype Call =
    | GetCall
    | SetLevelCall(level: Level)
    | LogCall(entryLevel: LogrusLevel, message: string, time: string, span: Option<nat>, lookup: Option<Hooks.CallSite>)

  function Apply(s: LoggerState, c: Call, rev: Hooks.Revision,
                 registry: seq<Otel.Callback>, results: Otel.ShutdownResults): LoggerState
  {
    match c
    case GetCall => GetLogHelper(s).0
    case SetLevelCall(level) => SetLogLevel(s, level)
    case LogCall(level, message, time, span, lookup) =>
      Log(s, level, message, time, span, lookup, rev, registry, results).state
  }

  function ApplyAll(s: LoggerState, calls: seq<Call>, rev: Hooks.Revision,
                    registry: seq<Otel.Callback>, results: Otel.ShutdownResults): LoggerState
    decreases |calls|
  {
    if calls == [] then s else ApplyAll(Apply(s, calls[0], rev, registry, results), calls[1..], rev, registry, results)
  }

  /** The singleton is well formed: initialized at most once, and when it
      exists, initialized exactly once with the registered chain, and a
      threshold `SetLogLevel` can produce. */
  ghost predicate Singleton(s: LoggerState)
  {
    && s.inits == (if s.helper.Some? then 1 else 0)
    && (s.helper.Some? ==> s.helper.value.hooks == Hooks.DefaultHooks
                           && s.helper.value.threshold != PanicLevel && s.helper.value.threshold != TraceLevel)
  }

  /** Whatever the program does, initialization runs at most once and the
      instance keeps its hooks. */
  lemma {:induction false} InitializedOnce(s: LoggerState, calls: seq<Call>, rev: Hooks.Revision,
                                           registry: seq<Otel.Callback>, results: Otel.ShutdownResults)
    requires Singleton(s)
    ensures Singleton(ApplyAll(s, calls, rev, registry, results))
    ensures ApplyAll(s, calls, rev, registry, results).inits <= 1
    decreases |calls|
  {
    if calls != [] {
      var s' := Apply(s, calls[0], rev, registry, results);
      assert Singleton(s');
      InitializedOnce(s', calls[1..], rev, registry, results);
    }
  }

  /** In a well-formed singleton a Fatal call is always emitted, so its hooks
      run before the process exits. */
  lemma FatalAlwaysEmitted(s: LoggerState, message: string, time: string, span: Option<nat>,
                           lookup: Option<Hooks.CallSite>, rev: Hooks.Revision,
                           registry: seq<Otel.Callback>, results: Otel.ShutdownResults)
    requires Singleton(s)
    ensures var r := Log(s, FatalLevel, message, time, span, lookup, rev, registry, results);
            r.effect.Some? && r.ends
  {
  }
}

=== FILE: otel.dfy ===
/** The telemetry connection manager (otelHelper/otelHelper.go and the
    alternative otelHelper/traceProvider.go): the shutdown registry, the
    trace-provider setup that fills it, environment defaulting and the
    once-guarded entry point. The OpenTelemetry SDK objects are opaque handles;
    what their constructors and Shutdown calls report is an input of the model. */
module Otel {

  import opened Wrappers
  import opened Errors

  /** An SDK object created during setup. */
  datatype Handle = TracerProvider(id: nat) | SpanExporter(id: nat)

  /** The closure that setup registers: shut down the provider, then the exporter. */
  datatype Callback = ProviderShutdown(provider: Handle, exporter: Handle)

  /** What the SDK's Shutdown reports for each handle (nil or an error). */
  type ShutdownResults = Handle -> Option<Error>

  const ProviderShutdownFailed := "Failed to shut down the tracer provider."
  const ExporterShutdownFailed := "Failed to shut down the SigNoz exporter."
  const ExporterCreateFailed := "Failed to create OTLP exporter"

  // ---------------------------------------------------------------------------
  // The registered callback
  // ---------------------------------------------------------------------------

  /** The four-way combination of the two (already wrapped) shutdown errors:
      nil when both are nil, the single error when only one is set, and when
      both are set the provider error wrapped with the exporter error's text. */
  function Combine(err1: Option<Error>, err2: Option<Error>): (r: Option<Error>)
    ensures r.None? <==> err1.None? && err2.None?
    ensures err1.Some? && err2.None? ==> r == err1
    ensures err1.None? ==> r == err2
    ensures err1.Some? && err2.Some? ==>
              OnChain(err1.value, r.value) && Root(r.value) == Root(err1.value)
              && Text(r.value) == Text(err2.value) + ": " + Text(err1.value)
  {
    if err1.Some? && err2.Some? then Some(Wrapped(Text(err2.value), err1.value))
    else if err1.Some? then err1
    else err2
  }

  /** One invocation of a callback: which SDK objects it shut down, in order,
      and the error it returned. */
  datatype Run = Run(callback: Callback, attempted: seq<Handle>, result: Option<Error>)

  function Invoke(cb: Callback, results: ShutdownResults): (run: Run)
    ensures run.callback == cb
    // the order of the two shutdowns; that the exporter is shut down even when
    // the provider failed shows in the both-failed clause below, whose text
    // holds the exporter's error
    ensures run.attempted == [cb.provider, cb.exporter]
    ensures run.result.None? <==> results(cb.provider).None? && results(cb.exporter).None?
    // only the provider failed: its error, wrapped once
    ensures results(cb.provider).Some? && results(cb.exporter).None? ==>
              run.result == Some(Wrapped(ProviderShutdownFailed, results(cb.provider).value))
    // only the exporter failed: its error, wrapped once
    ensures results(cb.provider).None? && results(cb.exporter).Some? ==>
              run.result == Some(Wrapped(ExporterShutdownFailed, results(cb.exporter).value))
    // both failed: one error whose cause chain is the provider's and whose text carries both
    ensures results(cb.provider).Some? && results(cb.exporter).Some? ==>
              Root(run.result.value) == Root(results(cb.provider).value)
              && Text(run.result.value)
                 == ExporterShutdownFailed + ": " + Text(results(cb.exporter).value) + ": "
                    + ProviderShutdownFailed + ": " + Text(results(cb.provider).value)
  {
    var err1 := WrapIfFailed(results(cb.provider), ProviderShutdownFailed);
    var err2 := WrapIfFailed(results(cb.exporter), ExporterShutdownFailed);
    Run(cb, [cb.provider, cb.exporter], Combine(err1, err2))
  }

  // ---------------------------------------------------------------------------
  // Shutdown: the best-effort drain
  // ---------------------------------------------------------------------------

  /** What a drain did: every invocation in order, and the errors it logged. */
  datatype Drain = Drain(runs: seq<Run>, logged: seq<Error>)

  /** The errors of the failed runs, in order. */
  function FailedResults(runs: seq<Run>): seq<Error>
  {
    if runs == [] then []
    else (if runs[0].result.Some? then [runs[0].result.value] else []) + FailedResults(runs[1..])
  }

  /** `Shutdown`: invoke every registered callback in registration order, log
      each error, and carry on; it returns nothing and leaves the registry as it is. */
  function Shutdown(registry: seq<Callback>, results: ShutdownResults): (d: Drain)
    ensures |d.runs| == |registry|
    ensures forall i :: 0 <= i < |registry| ==> d.runs[i] == Invoke(registry[i], results)
    ensures d.logged == FailedResults(d.runs)
  {
    if registry == [] then Drain([], [])
    else
      var run := Invoke(registry[0], results);
      var rest := Shutdown(registry[1..], results);
      assert ([run] + rest.runs)[1..] == rest.runs;
      Drain([run] + rest.runs, (if run.result.Some? then [run.result.value] else []) + rest.logged)
  }

  /** A callback that fails never keeps a later one from running, and the
      log holds exactly the errors of the failed runs. */
  lemma {:induction false} FailedResultsExact(runs: seq<Run>)
    ensures forall i :: 0 <= i < |runs| && runs[i].result.Some? ==> runs[i].result.value in FailedResults(runs)
    ensures forall e :: e in FailedResults(runs) ==> exists i :: 0 <= i < |runs| && runs[i].result == Some(e)
  {
    if runs != [] {
      FailedResultsExact(runs[1..]);
      forall i | 0 <= i < |runs| && runs[i].result.Some?
        ensures runs[i].result.value in FailedResults(runs)
      {
        if i > 0 {
          assert runs[1..][i - 1] == runs[i];
        }
      }
      forall e | e in FailedResults(runs)
        ensures exists i :: 0 <= i < |runs| && runs[i].result == Some(e)
      {
        if !(runs[0].result.Some? && e == runs[0].result.value) {
          var j :| 0 <= j < |runs[1..]| && runs[1..][j].result == Some(e);
          assert runs[j + 1].result == Some(e);
        }
      }
    }
  }

  /** A drain with no failing callback logs nothing. */
  lemma {:induction false} QuietDrain(registry: seq<Callback>, results: ShutdownResults)
    requires forall h :: results(h).None?
    ensures Shutdown(registry, results).logged == []
  {
    if registry != [] {
      QuietDrain(registry[1..], results);
    }
  }

  /** Draining twice runs the same callbacks in the same order: the registry
      is not consumed. */
  lemma ShutdownRepeatable(registry: seq<Callback>, first: ShutdownResults, second: ShutdownResults)
    ensures |Shutdown(registry, first).runs| == |Shutdown(registry, second).runs|
    ensures forall i :: 0 <= i < |registry| ==>
              Shutdown(registry, first).runs[i].callback == Shutdown(registry, second).runs[i].callback == registry[i]
  {
  }

  // ---------------------------------------------------------------------------
  // initTraceProvider
  // ---------------------------------------------------------------------------

  datatype ExporterOption = WithEndpoint(url: string) | WithInsecure

  /** `otlptracegrpc.New`: given the options, an exporter (named by its id) or an error. */
  type ExporterFactory = seq<ExporterOption> -> Result<nat, Error>

  /** A tracer provider that batches into `exporter` and names the service. */
  datatype Provider = Provider(handle: Handle, exporter: Handle, serviceName: string)

  /** The package's global state: the once-flag, the propagator and provider
      installed with the SDK, and the registry of shutdown callbacks. */
  datatype OtelState = OtelState(setupDone: bool, propagatorSet: bool, globalProvider: Option<Provider>, registry: seq<Callback>)

  const Initial := OtelState(false, false, None, [])

  /** A step either terminates the process (`log.Fatal`) or returns. */
  datatype Outcome = Exit(reason: string) | Return(state: OtelState, err: Option<Error>)

  /** The only options the exporter is ever built with: TLS ends the process first. */
  function InsecureOptions(collectorURL: string): seq<ExporterOption>
  {
    [WithEndpoint(collectorURL), WithInsecure]
  }

  function InitTraceProvider(s: OtelState, serviceName: string, collectorURL: string, supportTLS: bool,
                             newExporter: ExporterFactory): (o: Outcome)
    // TLS terminates before any exporter is built or anything is registered
    ensures supportTLS <==> o.Exit?
    ensures o.Return? ==> (o.err.None? <==> newExporter(InsecureOptions(collectorURL)).Success?)
    // construction failure: a wrapped error, and the state is untouched
    ensures o.Return? && o.err.Some? ==>
              o.state == s && o.err.value == Wrapped(ExporterCreateFailed, newExporter(InsecureOptions(collectorURL)).error)
    // success: exactly one callback appended, for the provider just installed
    ensures o.Return? && o.err.None? ==>
              && |o.state.registry| == |s.registry| + 1
              && o.state.registry[..|s.registry|] == s.registry
              && o.state.globalProvider.Some?
              && o.state.globalProvider.value.serviceName == serviceName
              && o.state.registry[|s.registry|]
                 == ProviderShutdown(o.state.globalProvider.value.handle, o.state.globalProvider.value.exporter)
              && o.state.globalProvider.value.exporter == SpanExporter(newExporter(InsecureOptions(collectorURL)).value)
              && o.state.setupDone == s.setupDone && o.state.propagatorSet == s.propagatorSet
  {
    if supportTLS then Exit("TLS is not implemented yet")
    else
      match newExporter(InsecureOptions(collectorURL))
      case Failure(e) => Return(s, Some(Wrapped(ExporterCreateFailed, e)))
      case Success(id) =>
        var p := Provider(TracerProvider(id), SpanExporter(id), serviceName);
        Return(s.(globalProvider := Some(p), registry := s.registry + [ProviderShutdown(p.handle, p.exporter)]), None)
  }

  // ---------------------------------------------------------------------------
  // Configuration from the environment
  // ---------------------------------------------------------------------------

  const ServiceNameVar := "OTEL_SERVICE_NAME"
  const CollectorURLVar := "OTEL_COLLECTOR_URL"
  const SupportTLSVar := "OTEL_SUPPORT_TLS"

  const DefaultServiceName := "TestService"
  const DefaultCollectorURL := "localhost:4317"

  /** `os.Getenv`: an unset variable reads as the empty string. */
  function Getenv(env: map<string, string>, key: string): string
  {
    if key in env then env[key] else ""
  }

  /** `strconv.ParseBool`: the spellings Go accepts, and an error otherwise. */
  function ParseBool(s: string): (r: Result<bool, Error>)
    ensures r.Success? <==> s in {"1", "t", "T", "TRUE", "true", "True", "0", "f", "F", "FALSE", "false", "False"}
    ensures r.Success? ==> (r.value <==> s[0] in "1tT")
  {
    if s == "1" || s == "t" || s == "T" || s == "TRUE" || s == "true" || s == "True" then Success(true)
    else if s == "0" || s == "f" || s == "F" || s == "FALSE" || s == "false" || s == "False" then Success(false)
    else Failure(Base("invalid syntax"))
  }

  /** `strconv.FormatBool`. */
  function FormatBool(b: bool): string
  {
    if b then "true" else "false"
  }

  /** ParseBool reads back what FormatBool writes, and an unset variable
      (the empty string) is not a boolean, so it falls back to the default. */
  lemma ParseBoolFormatBool(b: bool)
    ensures ParseBool(FormatBool(b)) == Success(b)
    ensures ParseBool("").Failure?
  {
  }

  datatype Setting = ServiceNameSetting | CollectorURLSetting | SupportTLSSetting

  /** The three settings, and which of them fell back to a default (each such
      fallback is logged as a warning). */
  datatype Config = Config(serviceName: string, collectorURL: string, supportTLS: bool, defaulted: set<Setting>)

  function ReadConfig(env: map<string, string>): (c: Config)
    ensures c.serviceName != "" && c.collectorURL != ""
    ensures Getenv(env, ServiceNameVar) == "" ==> c.serviceName == DefaultServiceName
    ensures Getenv(env, CollectorURLVar) == "" ==> c.collectorURL == DefaultCollectorURL
    ensures Getenv(env, ServiceNameVar) != "" ==> c.serviceName == Getenv(env, ServiceNameVar)
    ensures Getenv(env, CollectorURLVar) != "" ==> c.collectorURL == Getenv(env, CollectorURLVar)
    ensures c.supportTLS <==> ParseBool(Getenv(env, SupportTLSVar)) == Success(true)
    ensures ServiceNameSetting in c.defaulted <==> Getenv(env, ServiceNameVar) == ""
    ensures CollectorURLSetting in c.defaulted <==> Getenv(env, CollectorURLVar) == ""
    ensures SupportTLSSetting in c.defaulted <==> ParseBool(Getenv(env, SupportTLSVar)).Failure?
  {
    var name := Getenv(env, ServiceNameVar);
    var url := Getenv(env, CollectorURLVar);
    var tls := ParseBool(Getenv(env, SupportTLSVar));
    Config(
      if name == "" then DefaultServiceName else name,
      if url == "" then DefaultCollectorURL else url,
      if tls.Failure? then false else tls.value,
      (if name == "" then {ServiceNameSetting} else {})
      + (if url == "" then {CollectorURLSetting} else {})
      + (if tls.Failure? then {SupportTLSSetting} else {}))
  }

  /** An environment that spells out a configuration. */
  function EnvOf(c: Config): map<string, string>
  {
    map[ServiceNameVar := c.serviceName, CollectorURLVar := c.collectorURL,
        SupportTLSVar := FormatBool(c.supportTLS)]
  }

  /** An empty environment yields the documented defaults, each with a warning. */
  lemma EmptyEnvironmentDefaults()
    ensures ReadConfig(map[]) == Config(DefaultServiceName, DefaultCollectorURL, false,
                                        {ServiceNameSetting, CollectorURLSetting, SupportTLSSetting})
  {
  }

  /** Explicit, well-formed settings pass through unchanged and raise no warning. */
  lemma ReadConfigOfEnvOf(c: Config)
    requires c.serviceName != "" && c.collectorURL != ""
    ensures ReadConfig(EnvOf(c)) == c.(defaulted := {})
  {
    assert Getenv(EnvOf(c), ServiceNameVar) == c.serviceName;
    assert Getenv(EnvOf(c), CollectorURLVar) == c.collectorURL;
  }

  /** Defaulting is idempotent: writing the resolved settings back reads the same settings. */
  lemma ReadConfigIdempotent(env: map<string, string>)
    ensures ReadConfig(EnvOf(ReadConfig(env))).(defaulted := {}) == ReadConfig(env).(defaulted := {})
  {
    ReadConfigOfEnvOf(ReadConfig(env));
  }

  // ---------------------------------------------------------------------------
  // initOtelHelper and SetupOtelHelper
  // ---------------------------------------------------------------------------

  /** `initOtelHelper`: install the propagator, read the configuration, set up
      the trace provider; a setup error ends the process (`log.Fatalf`). */
  function InitOtelHelper(s: OtelState, env: map<string, string>, newExporter: ExporterFactory): (o: Outcome)
    ensures o.Return? ==> o.err.None? && o.state.propagatorSet && o.state.setupDone == s.setupDone
    ensures o.Exit? <==> ReadConfig(env).supportTLS
                         || newExporter(InsecureOptions(ReadConfig(env).collectorURL)).Failure?
    ensures o.Return? ==> |o.state.registry| == |s.registry| + 1 && o.state.registry[..|s.registry|] == s.registry
    ensures o.Return? ==> o.state.globalProvider.Some? && o.state.globalProvider.value.serviceName == ReadConfig(env).serviceName
    // the appended callback shuts down the provider and exporter just installed
    ensures o.Return? ==>
              && o.state.registry[|s.registry|]
                 == ProviderShutdown(o.state.globalProvider.value.handle, o.state.globalProvider.value.exporter)
              && o.state.globalProvider.value.exporter
                 == SpanExporter(newExporter(InsecureOptions(ReadConfig(env).collectorURL)).value)
  {
    var c := ReadConfig(env);
    match InitTraceProvider(s.(propagatorSet := true), c.serviceName, c.collectorURL, c.supportTLS, newExporter)
    case Exit(reason) => Exit(reason)
    case Return(s', err) =>
      if err.Some? then Exit("Failed to set up the trace provider. " + Text(err.value)) else Return(s', None)
  }

  /** `SetupOtelHelper`: runs `initOtelHelper` on the first call only. */
  function SetupOtelHelper(s: OtelState, env: map<string, string>, newExporter: ExporterFactory): (o: Outcome)
    ensures s.setupDone ==> o == Return(s, None)
    ensures o.Return? ==> o.err.None? && o.state.setupDone
    // the first call is `initOtelHelper`: it ends the process iff TLS is asked
    // for or the exporter cannot be built, and otherwise installs everything
    ensures !s.setupDone ==>
              (o.Exit? <==> ReadConfig(env).supportTLS
                            || newExporter(InsecureOptions(ReadConfig(env).collectorURL)).Failure?)
    ensures !s.setupDone && o.Return? ==>
              && |o.state.registry| == |s.registry| + 1 && o.state.registry[..|s.registry|] == s.registry
              && o.state.propagatorSet
              && o.state.globalProvider.Some?
              && o.state.globalProvider.value.serviceName == ReadConfig(env).serviceName
              && o.state.registry[|s.registry|]
                 == ProviderShutdown(o.state.globalProvider.value.handle, o.state.globalProvider.value.exporter)
  {
    if s.setupDone then Return(s, None)
    else InitOtelHelper(s.(setupDone := true), env, newExporter)
  }

  /** Only setup writes the registry, and only on its first call. */
  ghost predicate RegistryBounded(s: OtelState)
  {
    |s.registry| <= (if s.setupDone then 1 else 0)
  }

  /** A call to `SetupOtelHelper` from the program. */
  datatype SetupCall = SetupCall(env: map<string, string>, newExporter: ExporterFactory)

  /** Several calls in a row, stopping at the first that ends the process. */
  function SetupAll(s: OtelState, calls: seq<SetupCall>): Outcome
    decreases |calls|
  {
    if calls == [] then Return(s, None)
    else
      match SetupOtelHelper(s, calls[0].env, calls[0].newExporter)
      case Exit(reason) => Exit(reason)
      case Return(s', _) => SetupAll(s', calls[1..])
  }

  /** However often setup is called, the registry holds at most one callback. */
  lemma {:induction false} SetupRegistersAtMostOnce(s: OtelState, calls: seq<SetupCall>)
    requires RegistryBounded(s)
    ensures SetupAll(s, calls).Return? ==> RegistryBounded(SetupAll(s, calls).state)
    ensures SetupAll(s, calls).Return? ==> |SetupAll(s, calls).state.registry| <= 1
    decreases |calls|
  {
    if calls != [] {
      var o := SetupOtelHelper(s, calls[0].env, calls[0].newExporter);
      if o.Return? {
        assert RegistryBounded(o.state);
        SetupRegistersAtMostOnce(o.state, calls[1..]);
      }
    }
  }

  /** From the initial state, setup leaves at most one callback to drain. */
  lemma InitialSetupRegistersAtMostOnce(calls: seq<SetupCall>)
    ensures SetupAll(Initial, calls).Return? ==> |SetupAll(Initial, calls).state.registry| <= 1
  {
    SetupRegistersAtMostOnce(Initial, calls);
  }
}

=== FILE: wrappers.dfy ===
/** Failure-compatible wrappers used throughout the model: Go's `nil`-or-value
    results become `Option`, and `(value, error)` pairs become `Result`. */
module Wrappers {

  datatype Option<+T> = None | Some(value: T)

  datatype Result<+R, +E> = Success(value: R) | Failure(error: E)
}
